=== FILE: README.md ===
# LLM router decision and instrumented embedding call — a Dafny model

This project models two small cores of an OpenAI-compatible gateway.

1. **The LLM router** (`LLMRouterService` in `app/router/llm_router_service.py`).
   It picks the worker model that serves a chat request. It takes the text of the
   last `user` message, renders a routing prompt listing the configured workers,
   and asks a decision model for a JSON answer `{"chosen_model", "reasoning"}`.
   The answer is accepted only if `chosen_model` is exactly a configured worker
   name. An empty intent, an invalid choice and any failure inside the `try`
   return the configured default worker. Three cases raise instead, because the
   intent extraction runs before the `try`: no `user` message, a last `user`
   message whose content is `None`, and a first `text` part without a `text` key.
2. **The instrumented embedding call** (`EmbeddingService.create_embedding` in
   `app/service/embedding/embedding_service.py`). It makes one embedding call and
   returns the response or re-raises the error. It classifies the status code and
   writes an error log (on failure only) followed by one request log. The logged
   copy of the input is truncated.

Everything is pure functions over immutable datatypes. The credential supplier,
the chat transport, `json.loads` and the OpenAI client are inputs. The key result
is a value. The transport and the client are function parameters. The database
writes are records in an audit trace.

Modules, one per concern:

- `Wrappers` (`wrappers.dfy`): `Option` and `Result`.
- `Text` (`text.dfy`): `"\n".join`, and where each joined part lands.
- `RoutingPrompt` (`router_prompt.dfy`): the router configuration and `_build_routing_prompt`. The prompt text is reproduced character for character. The fixed text is a `PromptTemplate` value (`RouterTemplate`). The layout lemmas hold for any template, so they apply to the router's.
- `Intent` (`router_intent.dfy`): extracting the user's intent from the messages.
- `Router` (`router.dfy`): `select_worker_model`. The outcome is either `Returned(worker, path)` or `Raised(error)`. `path` names the branch taken, which is also the log line the source writes. The result also lists the external interactions in order: the key request and the decision call.
- `RequestLog` (`embedding_log.dfy`): truncation of the logged input.
- `StatusCode` (`status_code.dfy`): the `status code (\d+)` scan and the 500 fallback.
- `Embedding` (`embedding.dfy`): `create_embedding` with its audit trace.

The intent extraction runs before the `try`, so its failures escape, although the warning on line 50 ("Router could not find user prompt, falling back to default worker") announces a fallback for a missing user prompt. This model follows the code:

- With no `user` message, the code does not fall back to the default worker. The scan yields `None`. The multi-modal branch then iterates `None`, and the resulting `TypeError` is raised outside the `try`. The same happens when the last user message's content is `None`.
- A `text` part without a `text` key raises `KeyError`, also outside the `try`.

Both cases are `Raised` outcomes. See "Findings".

## Model

| member | source | states |
|---|---|---|
| Text.JoinLength | app/router/llm_router_service.py:20-23 | `"\n".join` adds nothing but the parts and one separator between neighbours: the join of no parts is empty, and otherwise its length plus one separator equals the sum of each part's length plus a separator |
| Text.JoinEnds | app/router/llm_router_service.py:20-23 | the join ends exactly where its last part ends, so nothing follows the last line |
| Text.PartAt | app/router/llm_router_service.py:20-23 | in a newline-joined list, each part appears verbatim at its computed offset, and one separator follows it before the next part |
| Text.PartsInOrder | app/router/llm_router_service.py:20-23 | joined parts keep their order: a later part starts after an earlier one and its separator end |
| RoutingPrompt.WorkerLineShape | app/router/llm_router_service.py:21 | a worker's line starts with ``- ` ``, has `: ` right after the closing backtick of the name, ends with the description, and is six characters longer than name and description together |
| RoutingPrompt.Names | app/router/llm_router_service.py:77 | the list of names a decision may choose from: one per config entry, in config order |
| RoutingPrompt.QuotedNameInLine | app/router/llm_router_service.py:21 | a worker's line holds its name between backticks, starting two characters in |
| RoutingPrompt.NameInPrompt | app/router/llm_router_service.py:20-29 | every configured worker's name appears in the prompt between backticks, two characters into that worker's own line |
| RoutingPrompt.RoutingPromptText | app/router/llm_router_service.py:25-39 | the prompt is head, then the user's text verbatim and unsanitised at a fixed offset, then the closing `" ` and a newline |
| RoutingPrompt.BuildRoutingPrompt | app/router/llm_router_service.py:17-40 | the routing prompt is exactly one message, with role `user`, whose content is the rendered prompt |
| RoutingPrompt.ListFramed | app/router/llm_router_service.py:25-39 | the prompt starts with the preamble, the worker list follows it, and the JSON instructions start exactly where the list ends, so the list holds nothing but the worker lines; with no configured workers the list is empty |
| RoutingPrompt.FrameInHead | app/router/llm_router_service.py:25-38 | the text before the user's prompt is the preamble, the worker list and the instructions, in that order |
| RoutingPrompt.WorkerLineInPrompt | app/router/llm_router_service.py:20-29 | every configured worker has its own line inside the prompt's worker list, and the next worker's line follows after one newline, and the last worker's line ends exactly where the worker list ends |
| RoutingPrompt.WorkerLineInHead | app/router/llm_router_service.py:20-29 | each worker's line lies whole inside the part of the prompt before the user's text |
| RoutingPrompt.LineStartStep | app/router/llm_router_service.py:20-23 | lines are separated by exactly one newline: the next line starts one character after this one ends |
| RoutingPrompt.WorkersInConfigOrder | app/router/llm_router_service.py:20-23 | worker lines appear in configuration order and do not overlap |
| Intent.LastUserIndex | app/router/llm_router_service.py:44 | the reverse scan finds the last message with role `user`; it finds nothing exactly when no message has that role |
| Intent.FirstTextIndex | app/router/llm_router_service.py:47 | the part scan finds the first part of type `text`; it finds nothing exactly when there is no such part |
| Intent.PartsIntent | app/router/llm_router_service.py:46-47 | multi-part content gives the first text part's text, `"Image analysis requested"` when there is no text part, and a `KeyError` when that part lacks `text` |
| Intent.ExtractIntent | app/router/llm_router_service.py:44-47 | the intent comes from the last user message: a string as is, parts as above; no user message or `None` content raises `TypeError` |
| Intent.ExtractIntentSucceeds | app/router/llm_router_service.py:44-47 | extraction succeeds if and only if a last user message exists with string content, or with parts whose first text part has a `text` key |
| Intent.ImageThenText | app/router/llm_router_service.py:47 | `[image, text "hello"]` yields `"hello"` |
| Intent.ImageOnly | app/router/llm_router_service.py:47 | `[image]` alone yields the image placeholder |
| Router.DecisionSettings | app/router/llm_router_service.py:58-63 | the decision request uses the configured router model, temperature 0.0 and JSON-object mode |
| Router.IntentInRequest | app/router/llm_router_service.py:53-63 | the decision request's messages are the routing prompt: one `user` message holding the user's text verbatim, right after the prompt head |
| Router.DecisionText | app/router/llm_router_service.py:71 | the decision text is the first choice's message content, and it exists exactly when the choices key, a first choice and a string content all exist |
| Router.ChosenModel | app/router/llm_router_service.py:74 | `decision.get("chosen_model")` gives a name exactly when the key is present with a string value |
| Router.Validate | app/router/llm_router_service.py:72-87 | the decision is validated if and only if it is a JSON object whose `chosen_model` is exactly a configured name, and that name is returned; an object otherwise gives the default on the invalid-choice path; non-JSON text or a non-object decision gives the default on the `except` path, each with its own cause |
| Router.Decide | app/router/llm_router_service.py:65-87 | after the call: a failed call or a malformed response gives the default through the `except`; otherwise the decoded text is validated |
| Router.SelectWorker | app/router/llm_router_service.py:42-87 | a returned worker is always a configured name or the default. Only extraction can raise. An empty intent returns the default with no key request and no call. A non-empty intent always leads to one key request and at most one decision call, with the routing prompt, the router model, temperature 0.0 and JSON mode |
| Router.ValidChoiceIsReturned | app/router/llm_router_service.py:74-80 | a decision naming a configured worker exactly (case-sensitive) selects that worker |
| Router.InvalidChoiceFallsBack | app/router/llm_router_service.py:81-83 | a missing, non-string or unknown `chosen_model` yields the default on the non-exceptional path |
| Router.FailuresFallBack | app/router/llm_router_service.py:55-87 | no key, a failed call, a malformed response, non-JSON text or a non-object decision each yield the default worker |
| Router.RoutedWorkerNonEmpty | app/router/llm_router_service.py:49-87 | with non-empty configured names and default, a returned worker is never empty |
| Router.NoUserMessageRaises | app/router/llm_router_service.py:44-47 | as written, a request with no `user` message raises and makes no key request or call |
| Router.ExtractIntentIntended | app/router/llm_router_service.py:44-51 | corrected extraction: no user message, or `None` content, yields no intent; a text part without `text` still raises the same `KeyError`, and every input the code handles gives the code's intent |
| Router.SelectWorkerIntended | app/router/llm_router_service.py:44-51 | corrected routing: no user message, or `None` content, returns the default with no external interaction; the whitelist still holds; a text part without `text` still raises as the code does, and every other request is routed exactly as the code routes it |
| RequestLog.Truncate | app/service/embedding/embedding_service.py:41 | the result keeps the leading characters that fit the limit, is at most limit + 3 long, and differs from the input only by ending in `"..."` after exactly `limit` characters |
| RequestLog.TruncateCases | app/service/embedding/embedding_service.py:38-43 | a string of at most 1000 characters is logged unchanged; a longer one as its first 1000 characters plus `"..."` |
| RequestLog.TruncateIdempotent | app/service/embedding/embedding_service.py:41 | truncating a logged string again changes nothing |
| RequestLog.TruncateFixedPoints | app/service/embedding/embedding_service.py:41 | truncation leaves a string unchanged if and only if it is within the limit, or is exactly limit + 3 long and ends in `"..."` |
| RequestLog.TruncateEach | app/service/embedding/embedding_service.py:31-34 | each item is cut to 100 characters plus `"..."`, in order, one result per item |
| RequestLog.LogItems | app/service/embedding/embedding_service.py:29-37 | the logged list has the first five items truncated, in order, plus one `"..."` element only when there were more than five, so at most six elements |
| RequestLog.LogInput | app/service/embedding/embedding_service.py:29-43 | a string input is logged as a string of at most 1003 characters; a list input as the logged list |
| RequestLog.LogItemsSeesSixItems | app/service/embedding/embedding_service.py:33-37 | only the first six items determine the logged list |
| RequestLog.LogItemsIdempotent | app/service/embedding/embedding_service.py:29-37 | logging an already logged list reproduces it |
| StatusCode.DigitRun | app/service/embedding/embedding_service.py:71 | the greedy `\d+` takes the longest leading run of digits |
| StatusCode.FirstMatchFrom | app/service/embedding/embedding_service.py:71 | the scan finds the leftmost `status code ` followed by a digit, and no earlier position matches |
| StatusCode.StatusCodeIn | app/service/embedding/embedding_service.py:71-73 | a code is found if and only if some position matches, and it is the number at the leftmost match |
| StatusCode.GenericStatus | app/service/embedding/embedding_service.py:71-75 | a generic error's status is the number at the first match, or 500 when nothing matches |
| StatusCode.DecimalRoundTrip | app/service/embedding/embedding_service.py:73 | `int()` of a rendered number gives back the number |
| StatusCode.ReportedCodeRoundTrip | app/service/embedding/embedding_service.py:71-75 | a message `status code <n>`, followed by a non-digit or nothing, reports `n` |
| Embedding.DimensionsParam | app/service/embedding/embedding_service.py:53-54 | `dimensions` is passed on if and only if it is present and non-zero, and then unchanged |
| Embedding.ParamsFor | app/service/embedding/embedding_service.py:49-54 | the call receives the full, untruncated input and the model |
| Embedding.StatusFor | app/service/embedding/embedding_service.py:58-75 | status is 200 on success, the error's own code for an `APIStatusError`, and the scanned code or 500 for a generic error. It stays unset for an exception outside `Exception` |
| Embedding.ErrorMessage | app/service/embedding/embedding_service.py:64-69 | the error-log text is `"OpenAI API error: "` or `"Generic error: "` followed by the error's message |
| Embedding.CreateEmbedding | app/service/embedding/embedding_service.py:45-97 | the response is returned unchanged, or the same error is re-raised. The trace holds an `openai-embedding` error log, with the truncated input, exactly on failure. One request log always comes last, with the success flag and the status |
| Embedding.AuditProtocol | app/service/embedding/embedding_service.py:77-97 | every call writes exactly one request log, and one error log if and only if it failed |
| Embedding.SuccessIsRecorded | app/service/embedding/embedding_service.py:56-60 | a successful call leaves exactly one request log, with success set and status 200 |
| Embedding.ReportedStatusIsLogged | app/service/embedding/embedding_service.py:67-97 | a generic error whose message starts with `status code <n>` is re-raised unchanged, and both the error log and the request log carry status `n` |

## Left out

- The lazy singleton `get_router_service` is left out: it is global mutable state behind an `async` function. So is the constructor, which only stores the key manager and builds a chat service.
- The credential supplier (`key_manager.get_next_working_key`), the chat transport (`_handle_normal_completion`) and the OpenAI client are left out as foreign calls: the first two are awaited, while the OpenAI client is a synchronous `openai.OpenAI` call (lines 46 and 56). They appear as a `KeyResult` value and as the functions `invoke` and `call`.
- `json.loads` is left out: the function `decode` maps the text to `NotJson`, a JSON object, or another JSON value. A JSON value is only examined for being a string.
- `ChatRequest` construction and `model_dump(exclude_none=True)` are assumed to succeed. The request is modelled by its four fields.
- Logger calls are left out. `Router.Path` records which log line the source would write.
- `perf_counter` latency and `datetime.now()` timestamps are left out of the audit records. They involve floating point and clocks.
- The database writes are left out as persistence. They are records appended to a trace. A failing database write is not modelled. A failing `add_error_log` (line 81) would skip the request log, and a failing `add_request_log` (line 90) would also replace the returned response or the re-raised error.
- `str(item)` of non-string list items is left out: list items are strings.
- StatusCode.DigitRun: accepts only ASCII digits. Python's `\d` and `int()` also accept other Unicode decimal digits.
- StatusCode.FirstMatchFrom: a match needs an ASCII digit after `status code `, so a message such as `status code ٤٠٤` matches in Python but not here.
- StatusCode.StatusCodeIn: reports no code for messages whose only match uses non-ASCII decimal digits, where Python's `re.search` finds one.
- StatusCode.GenericStatus: gives 500 for such messages, where the source logs the number written in those digits.
- Malformed message or part dictionaries are left out: a missing `role`, `content` or `type` key, or a `text` value that is not a string. In the source a `None` or falsy value returns the default worker at lines 49-51, and any other value (such as the number 42) is formatted into the prompt.
- Characters are Unicode scalar values. This matches Python's code-point slicing except for lone surrogates.
- Concurrency, cancellation and `async` suspension are left out. Each call is one sequential run.

## Findings

| source | as written | input that shows it | evidently intended | confidence | as-written member | corrected member |
|---|---|---|---|---|---|---|
| app/router/llm_router_service.py:44-51 | when no message has role `user`, line 44 yields `None` and line 47 iterates it; the `TypeError` is raised outside the `try` | messages `[{"role": "system", "content": "be brief"}]` | lines 49-51 warn "could not find user prompt" and return the default worker | not executed; high (the warning branch is unreachable for this input) | Router.NoUserMessageRaises | Router.SelectWorkerIntended |

=== FILE: embedding.dfy ===
/** `EmbeddingService.create_embedding`: one embedding call, classified and audited.
    The OpenAI client is the function `call`; the two database writes are records
    appended to an audit trace. */
module Embedding {
  import opened Wrappers
  import opened RequestLog
  import opened StatusCode

  /** The keyword arguments handed to `client.embeddings.create`. */
  datatype EmbeddingParams = EmbeddingParams(input: EmbeddingInput, model: string, dimensions: Option<int>)

  /** How the call can fail: an `APIStatusError` carrying its own status code, any
      other `Exception`, or a `BaseException` outside `Exception` (such as
      `KeyboardInterrupt` or `SystemExit`), which neither `except` clause catches. `message` is `str(e)`. */
  datatype CallError =
    | ApiStatusError(statusCode: int, message: string)
    | GenericError(message: string)
    | Interrupt

  datatype CallResult<R> = Succeeded(response: R) | Failed(error: CallError)

  /** One database write: `add_error_log` or `add_request_log` (timestamps and latency left out). */
  datatype AuditRecord =
    | ErrorLog(apiKey: string, model: string, errorType: string, errorMessage: string,
               errorCode: Option<int>, request: LoggedInput)
    | RequestLogRecord(model: string, apiKey: string, success: bool, statusCode: Option<int>)

  /** The response handed back, or the very error re-raised. */
  datatype Outcome<R> = Returned(response: R) | Reraised(error: CallError)

  datatype Run<R> = Run(outcome: Outcome<R>, audit: seq<AuditRecord>)

  const ErrorType := "openai-embedding"
  const SuccessStatus := 200
  const ApiErrorPrefix := "OpenAI API error: "
  const GenericErrorPrefix := "Generic error: "

  /** `dimensions` is passed on only when it is truthy: present and non-zero. */
  function DimensionsParam(dimensions: Option<int>): (r: Option<int>)
    ensures r.Some? <==> dimensions.Some? && dimensions.value != 0
    ensures r.Some? ==> r == dimensions
  {
    match dimensions
    case Some(d) => if d != 0 then Some(d) else None
    case None => None
  }

  /** The call's parameters: the full, untruncated input and the model. */
  function ParamsFor(input: EmbeddingInput, model: string, dimensions: Option<int>): (p: EmbeddingParams)
    ensures p.input == input && p.model == model
    ensures p.dimensions == DimensionsParam(dimensions)
  {
    EmbeddingParams(input, model, DimensionsParam(dimensions))
  }

  /** The status code recorded for the call's result. */
  function StatusFor<R>(result: CallResult<R>): (code: Option<int>)
    ensures result.Succeeded? ==> code == Some(SuccessStatus)
    ensures result.Failed? && result.error.ApiStatusError? ==> code == Some(result.error.statusCode)
    ensures result.Failed? && result.error.GenericError? ==> code.Some? && code.value >= 0
    ensures result.Failed? && result.error.GenericError? && StatusCodeIn(result.error.message).None? ==>
              code == Some(FallbackStatus)
    ensures result.Failed? && result.error.GenericError? && StatusCodeIn(result.error.message).Some? ==>
              code == Some(StatusCodeIn(result.error.message).value)
    ensures result.Failed? && result.error.Interrupt? ==> code.None?
  {
    match result
    case Succeeded(_) => Some(SuccessStatus)
    case Failed(ApiStatusError(c, _)) => Some(c)
    case Failed(GenericError(m)) => Some(GenericStatus(m))
    case Failed(Interrupt) => None
  }

  /** The error-log text for a failure (`error_log_msg`). */
  function ErrorMessage(error: CallError): (text: string)
    ensures error.ApiStatusError? ==> |text| == |ApiErrorPrefix| + |error.message|
    ensures error.GenericError? ==> |text| == |GenericErrorPrefix| + |error.message|
    ensures error.ApiStatusError? ==> text[..|ApiErrorPrefix|] == ApiErrorPrefix && text[|ApiErrorPrefix|..] == error.message
    ensures error.GenericError? ==> text[..|GenericErrorPrefix|] == GenericErrorPrefix && text[|GenericErrorPrefix|..] == error.message
    ensures error.Interrupt? ==> text == ""
  {
    match error
    case ApiStatusError(_, m) => ApiErrorPrefix + m
    case GenericError(m) => GenericErrorPrefix + m
    case Interrupt => ""
  }

  /** `create_embedding`: call once with the full input, return the response or
      re-raise the error, and append an error log (failures only) and then one
      request log. */
  function CreateEmbedding<R>(input: EmbeddingInput, model: string, apiKey: string, dimensions: Option<int>,
                              call: EmbeddingParams -> CallResult<R>): (r: Run<R>)
    // The response or the error is forwarded unchanged.
    ensures call(ParamsFor(input, model, dimensions)).Succeeded? <==> r.outcome.Returned?
    ensures r.outcome.Returned? ==> r.outcome.response == call(ParamsFor(input, model, dimensions)).response
    ensures r.outcome.Reraised? ==> r.outcome.error == call(ParamsFor(input, model, dimensions)).error
    // The trace: an error log exactly on failure, then always one request log.
    ensures |r.audit| == if r.outcome.Returned? then 1 else 2
    ensures r.audit[|r.audit| - 1] ==
              RequestLogRecord(model, apiKey, r.outcome.Returned?, StatusFor(call(ParamsFor(input, model, dimensions))))
    ensures r.outcome.Reraised? ==>
              r.audit[0] == ErrorLog(apiKey, model, ErrorType, ErrorMessage(r.outcome.error),
                                     StatusFor(call(ParamsFor(input, model, dimensions))), LogInput(input))
  {
    var result := call(ParamsFor(input, model, dimensions));
    var status := StatusFor(result);
    var requestLog := RequestLogRecord(model, apiKey, result.Succeeded?, status);
    match result
    case Succeeded(response) => Run(Returned(response), [requestLog])
    case Failed(error) =>
      Run(Reraised(error), [ErrorLog(apiKey, model, ErrorType, ErrorMessage(error), status, LogInput(input)), requestLog])
  }

  /** Number of request-log records in a trace. */
  function RequestLogCount(audit: seq<AuditRecord>): nat
  {
    if |audit| == 0 then 0
    else (if audit[0].RequestLogRecord? then 1 else 0) + RequestLogCount(audit[1..])
  }

  /** Number of error-log records in a trace. */
  function ErrorLogCount(audit: seq<AuditRecord>): nat
  {
    if |audit| == 0 then 0
    else (if audit[0].ErrorLog? then 1 else 0) + ErrorLogCount(audit[1..])
  }

  /** Every call writes exactly one request log, and one error log if and only if it
      failed; the error log comes first. */
  lemma AuditProtocol<R>(input: EmbeddingInput, model: string, apiKey: string, dimensions: Option<int>,
                         call: EmbeddingParams -> CallResult<R>)
    ensures RequestLogCount(CreateEmbedding(input, model, apiKey, dimensions, call).audit) == 1
    ensures ErrorLogCount(CreateEmbedding(input, model, apiKey, dimensions, call).audit) ==
              if call(ParamsFor(input, model, dimensions)).Failed? then 1 else 0
  {
    var audit := CreateEmbedding(input, model, apiKey, dimensions, call).audit;
    var last := audit[|audit| - 1..];
    assert RequestLogCount(last) == 1 by {
      assert last[1..] == [];
    }
    assert ErrorLogCount(last) == 0 by {
      assert last[1..] == [];
    }
    if |audit| == 2 {
      assert audit[1..] == last;
    } else {
      assert audit == last;
    }
  }

  /** A successful call is recorded with status 200 and the success flag set. */
  lemma SuccessIsRecorded<R>(input: EmbeddingInput, model: string, apiKey: string, dimensions: Option<int>,
                             call: EmbeddingParams -> CallResult<R>)
    requires call(ParamsFor(input, model, dimensions)).Succeeded?
    ensures CreateEmbedding(input, model, apiKey, dimensions, call).audit ==
              [RequestLogRecord(model, apiKey, true, Some(SuccessStatus))]
  {
  }

  /** A generic failure whose message starts with `status code <n>` is re-raised
      and logged with status `n` in both records. */
  lemma ReportedStatusIsLogged<R>(input: EmbeddingInput, model: string, apiKey: string, dimensions: Option<int>,
                                  call: EmbeddingParams -> CallResult<R>, n: nat, rest: string)
    requires rest == [] || !IsDigit(rest[0])
    requires call(ParamsFor(input, model, dimensions)) == Failed(GenericError(Marker + DecimalString(n) + rest))
    ensures CreateEmbedding(input, model, apiKey, dimensions, call).outcome ==
              Reraised(GenericError(Marker + DecimalString(n) + rest))
    ensures CreateEmbedding(input, model, apiKey, dimensions, call).audit[0].errorCode == Some(n)
    ensures CreateEmbedding(input, model, apiKey, dimensions, call).audit[1] ==
              RequestLogRecord(model, apiKey, false, Some(n))
  {
    ReportedCodeRoundTrip(n, rest);
  }
}

=== FILE: embedding_log.dfy ===
/** The truncated copy of an embedding request's input that goes into the error
    log (`request_msg_log["input_truncated"]` in `EmbeddingService.create_embedding`). */
module RequestLog {

  /** The embedding input: one string or a list of strings. */
  datatype EmbeddingInput = Single(text: string) | Batch(items: seq<string>)

  /** The logged form of the input. */
  datatype LoggedInput = LoggedText(text: string) | LoggedItems(items: seq<string>)

  const Ellipsis := "..."
  const MaxTextLength := 1000
  const MaxItemLength := 100
  const MaxLoggedItems := 5

  /** How many leading characters of `s` survive truncation at `limit`. */
  function Kept(s: string, limit: nat): nat
  {
    if |s| <= limit then |s| else limit
  }

  /** `s[:limit] + "..." if len(s) > limit else s`. */
  function Truncate(s: string, limit: nat): (r: string)
    ensures |r| <= limit + |Ellipsis|
    ensures |r| <= |s| + |Ellipsis|
    ensures Kept(s, limit) <= |r| && r[..Kept(s, limit)] == s[..Kept(s, limit)]
    ensures r != s ==> |s| > limit && |r| == limit + |Ellipsis| && r[limit..] == Ellipsis
  {
    if |s| > limit then s[..limit] + Ellipsis else s
  }

  /** A string no longer than the limit is logged unchanged; a longer one as its
      first `limit` characters followed by the ellipsis. */
  lemma TruncateCases(s: string, limit: nat)
    ensures |s| <= limit ==> Truncate(s, limit) == s
    ensures |s| > limit ==> |Truncate(s, limit)| == limit + |Ellipsis|
    ensures |s| > limit ==> Truncate(s, limit)[..limit] == s[..limit] && Truncate(s, limit)[limit..] == Ellipsis
  {
  }

  /** Truncating twice logs the same as truncating once. */
  lemma TruncateIdempotent(s: string, limit: nat)
    ensures Truncate(Truncate(s, limit), limit) == Truncate(s, limit)
  {
  }

  /** The strings truncation leaves alone: short ones, and those that already look
      truncated. */
  lemma TruncateFixedPoints(s: string, limit: nat)
    ensures Truncate(s, limit) == s <==> |s| <= limit || (|s| == limit + |Ellipsis| && s[limit..] == Ellipsis)
  {
  }

  /** Each item cut to `MaxItemLength` characters, in order. */
  function TruncateEach(items: seq<string>): (r: seq<string>)
    ensures |r| == |items|
    ensures forall i :: 0 <= i < |items| ==> r[i] == Truncate(items[i], MaxItemLength)
  {
    if |items| == 0 then [] else [Truncate(items[0], MaxItemLength)] + TruncateEach(items[1..])
  }

  /** The logged list: the first five items, each truncated, and one ellipsis
      element when more than five were supplied. */
  function LogItems(items: seq<string>): (r: seq<string>)
    ensures |r| <= MaxLoggedItems + 1
    ensures |items| <= MaxLoggedItems ==> |r| == |items|
    ensures |items| > MaxLoggedItems ==> |r| == MaxLoggedItems + 1 && r[MaxLoggedItems] == Ellipsis
    ensures forall i :: 0 <= i < |items| && i < MaxLoggedItems ==>
              r[i] == Truncate(items[i], MaxItemLength) && |r[i]| <= MaxItemLength + |Ellipsis|
  {
    var head := TruncateEach(if |items| > MaxLoggedItems then items[..MaxLoggedItems] else items);
    if |items| > MaxLoggedItems then head + [Ellipsis] else head
  }

  /** The logged form of an input of either shape. */
  function LogInput(input: EmbeddingInput): (r: LoggedInput)
    ensures input.Single? <==> r.LoggedText?
    ensures input.Single? ==> |r.text| <= MaxTextLength + |Ellipsis|
    ensures input.Single? ==> r.text == Truncate(input.text, MaxTextLength)
    ensures input.Batch? ==> r.items == LogItems(input.items)
  {
    match input
    case Single(text) => LoggedText(Truncate(text, MaxTextLength))
    case Batch(items) => LoggedItems(LogItems(items))
  }

  /** Only the first six items decide the logged list. */
  lemma LogItemsSeesSixItems(items: seq<string>)
    requires |items| > MaxLoggedItems
    ensures LogItems(items) == LogItems(items[..MaxLoggedItems + 1])
  {
  }

  /** Logging an already logged list changes nothing. */
  lemma LogItemsIdempotent(items: seq<string>)
    ensures LogItems(LogItems(items)) == LogItems(items)
  {
  }
}

=== FILE: router.dfy ===
/** The routing decision of `LLMRouterService.select_worker_model`, with the
    credential supplier, the chat transport and `json.loads` abstracted. */
module Router {
  import opened Wrappers
  import opened RoutingPrompt
  import opened Intent

  /** What the credential supplier answers to `get_next_working_key()`. */
  datatype KeyResult = KeyGranted(key: string) | KeyUnavailable

  /** The decision request: model, messages, temperature and response format. */
  datatype DecisionRequest = DecisionRequest(model: string, messages: seq<PromptMessage>, temperature: real, responseFormat: string)

  /** One entry of the response's `choices`; `content` is `None` when
      `['message']['content']` is missing or not a string. */
  datatype Choice = Choice(content: Option<string>)

  /** The response dictionary; `choices` is `None` when the key is missing. */
  datatype ResponseBody = ResponseBody(choices: Option<seq<Choice>>)

  /** What the chat transport does with the decision request. */
  datatype CallResult = CallFailed | Responded(body: ResponseBody)

  /** A JSON value, as far as the router looks at it. */
  datatype JsonValue = JsonString(s: string) | JsonOtherValue

  /** What `json.loads` makes of the decision text. */
  datatype Decoded = NotJson | JsonObject(fields: map<string, JsonValue>) | JsonNonObject

  /** The failure caught by the `except Exception` clause. */
  datatype FailureCause = KeyNotAcquired | UpstreamFailed | MalformedResponse | InvalidJson | NotAnObject

  /** Which branch produced the returned worker; it selects the log line the source writes. */
  datatype Path = NoIntent | Validated | InvalidChoice | Recovered(cause: FailureCause)

  /** A returned worker name, or an exception escaping the operation. */
  datatype Outcome = Returned(worker: string, path: Path) | Raised(error: IntentError)

  /** One invocation of the chat transport: the request and the key it is sent with. */
  datatype DecisionCall = DecisionCall(request: DecisionRequest, key: string)

  /** The external interactions of one routing call, in order. */
  datatype Event = KeyRequested | Called(call: DecisionCall)

  datatype Routing = Routing(outcome: Outcome, events: seq<Event>)

  const JsonObjectFormat := "json_object"
  const ChosenModelKey := "chosen_model"

  /** The request the router sends: the configured router model, the routing prompt,
      temperature 0.0 and JSON-object response mode. */
  function DecisionRequestFor(config: RouterConfig, intent: string): DecisionRequest
  {
    DecisionRequest(config.routerModel, BuildRoutingPrompt(config.workers, intent), 0.0, JsonObjectFormat)
  }

  /** Whatever the intent, the decision goes to the configured router model at
      temperature 0.0 in JSON-object mode. */
  lemma DecisionSettings(config: RouterConfig, intent: string)
    ensures DecisionRequestFor(config, intent).model == config.routerModel
    ensures DecisionRequestFor(config, intent).temperature == 0.0
    ensures DecisionRequestFor(config, intent).responseFormat == "json_object"
  {
  }

  /** The decision request's messages are the routing prompt: one `user` message
      holding the user's text verbatim, right after the prompt head. */
  lemma IntentInRequest(config: RouterConfig, intent: string)
    ensures DecisionRequestFor(config, intent).messages == BuildRoutingPrompt(config.workers, intent)
    ensures |DecisionRequestFor(config, intent).messages| == 1
    ensures DecisionRequestFor(config, intent).messages[0].role == "user"
    ensures |PromptHead(RouterTemplate, config.workers)| + |intent| <= |DecisionRequestFor(config, intent).messages[0].content|
    ensures DecisionRequestFor(config, intent).messages[0].content[|PromptHead(RouterTemplate, config.workers)|..|PromptHead(RouterTemplate, config.workers)| + |intent|]
            == intent
  {
  }

  /** `response_dict['choices'][0]['message']['content']`, or `None` when that
      lookup or the later `json.loads` would raise on the shape. */
  function DecisionText(body: ResponseBody): (r: Option<string>)
    ensures r.Some? <==> body.choices.Some? && |body.choices.value| > 0 && body.choices.value[0].content.Some?
    ensures r.Some? ==> r.value == body.choices.value[0].content.value
  {
    match body.choices
    case None => None
    case Some(choices) => if |choices| == 0 then None else choices[0].content
  }

  /** `decision.get("chosen_model")` when it is a string; `None` when the key is
      missing or names a non-string JSON value (neither can be in the name list). */
  function ChosenModel(fields: map<string, JsonValue>): (r: Option<string>)
    ensures r.Some? <==> ChosenModelKey in fields && fields[ChosenModelKey].JsonString?
    ensures r.Some? ==> fields[ChosenModelKey] == JsonString(r.value)
  {
    if ChosenModelKey in fields && fields[ChosenModelKey].JsonString? then Some(fields[ChosenModelKey].s) else None
  }

  /** The validation step: the decision must name a configured worker exactly. */
  function Validate(config: RouterConfig, decoded: Decoded): (r: Outcome)
    ensures r.Returned?
    ensures r.path.Validated? <==>
              decoded.JsonObject? && ChosenModel(decoded.fields).Some? && ChosenModel(decoded.fields).value in Names(config.workers)
    ensures r.path.Validated? ==> r.worker == ChosenModel(decoded.fields).value
    ensures !r.path.Validated? ==> r.worker == config.defaultWorker
    ensures r.path.InvalidChoice? <==> decoded.JsonObject? && !r.path.Validated?
    ensures decoded.NotJson? ==> r == Returned(config.defaultWorker, Recovered(InvalidJson))
    ensures decoded.JsonNonObject? ==> r == Returned(config.defaultWorker, Recovered(NotAnObject))
  {
    match decoded
    case NotJson => Returned(config.defaultWorker, Recovered(InvalidJson))
    case JsonNonObject => Returned(config.defaultWorker, Recovered(NotAnObject))
    case JsonObject(fields) =>
      var chosen := ChosenModel(fields);
      if chosen.Some? && chosen.value in Names(config.workers) then Returned(chosen.value, Validated)
      else Returned(config.defaultWorker, InvalidChoice)
  }

  /** Everything after the decision call: extract the text, decode it, validate it. */
  function Decide(config: RouterConfig, call: CallResult, decode: string -> Decoded): (r: Outcome)
    ensures r.Returned?
    ensures r.path.Validated? ==> r.worker in Names(config.workers)
    ensures !r.path.Validated? ==> r.worker == config.defaultWorker
    ensures call.CallFailed? ==> r == Returned(config.defaultWorker, Recovered(UpstreamFailed))
    ensures call.Responded? && DecisionText(call.body).None? ==> r == Returned(config.defaultWorker, Recovered(MalformedResponse))
    ensures call.Responded? && DecisionText(call.body).Some? ==> r == Validate(config, decode(DecisionText(call.body).value))
  {
    match call
    case CallFailed => Returned(config.defaultWorker, Recovered(UpstreamFailed))
    case Responded(body) =>
      match DecisionText(body)
      case None => Returned(config.defaultWorker, Recovered(MalformedResponse))
      case Some(text) => Validate(config, decode(text))
  }

  /** `select_worker_model`: extract the intent, fall back on an empty one, otherwise
      request a key, call the decision model once and validate its answer. */
  function SelectWorker(config: RouterConfig, msgs: seq<Message>, key: KeyResult,
                        invoke: DecisionCall -> CallResult, decode: string -> Decoded): (r: Routing)
    // Whitelist: a returned worker is a configured name or the default.
    ensures r.outcome.Returned? ==> r.outcome.worker in Names(config.workers) || r.outcome.worker == config.defaultWorker
    ensures r.outcome.Returned? && r.outcome.path.Validated? ==> r.outcome.worker in Names(config.workers)
    ensures r.outcome.Returned? && !r.outcome.path.Validated? ==> r.outcome.worker == config.defaultWorker
    // Only the extraction, which runs outside the `try`, can raise.
    ensures r.outcome.Raised? <==> ExtractIntent(msgs).Err?
    ensures r.outcome.Raised? ==> r.outcome.error == ExtractIntent(msgs).error
    ensures HasNoUser(msgs) ==> r.outcome == Raised(NotIterable)
    // An empty intent returns the default without requesting a key or calling.
    ensures ExtractIntent(msgs) == Ok("") ==> r.outcome == Returned(config.defaultWorker, NoIntent)
    // A non-empty intent always leads to a key request and never to the no-intent path.
    ensures ExtractIntent(msgs).Ok? && ExtractIntent(msgs).value != "" ==>
              r.events != [] && r.outcome.Returned? && !r.outcome.path.NoIntent?
    ensures r.events == [] <==> r.outcome.Raised? || r.outcome.path == NoIntent
    // A key is requested once, and the decision model called at most once with it.
    ensures r.events != [] ==> r.events[0] == KeyRequested
    ensures r.events != [] && key.KeyUnavailable? ==>
              r.events == [KeyRequested] && r.outcome == Returned(config.defaultWorker, Recovered(KeyNotAcquired))
    ensures r.events != [] && key.KeyGranted? ==>
              r.events == [KeyRequested, Called(DecisionCall(DecisionRequestFor(config, ExtractIntent(msgs).value), key.key))]
    ensures |r.events| == 2 ==>
              r.outcome == Decide(config, invoke(r.events[1].call), decode)
  {
    match ExtractIntent(msgs)
    case Err(e) => Routing(Raised(e), [])
    case Ok(intent) =>
      if intent == "" then Routing(Returned(config.defaultWorker, NoIntent), [])
      else
        var request := DecisionRequestFor(config, intent);
        match key
        case KeyUnavailable => Routing(Returned(config.defaultWorker, Recovered(KeyNotAcquired)), [KeyRequested])
        case KeyGranted(k) =>
          var call := DecisionCall(request, k);
          Routing(Decide(config, invoke(call), decode), [KeyRequested, Called(call)])
  }

  /** The intent taken from `msgs`, when extraction yields a non-empty one. */
  ghost predicate HasIntent(msgs: seq<Message>, intent: string)
  {
    ExtractIntent(msgs) == Ok(intent) && intent != ""
  }

  /** A decision naming a configured worker, exactly, selects that worker. */
  lemma ValidChoiceIsReturned(config: RouterConfig, msgs: seq<Message>, key: string, intent: string,
                              invoke: DecisionCall -> CallResult, decode: string -> Decoded,
                              body: ResponseBody, fields: map<string, JsonValue>, name: string)
    requires HasIntent(msgs, intent)
    requires invoke(DecisionCall(DecisionRequestFor(config, intent), key)) == Responded(body)
    requires DecisionText(body).Some? && decode(DecisionText(body).value) == JsonObject(fields)
    requires ChosenModelKey in fields && fields[ChosenModelKey] == JsonString(name)
    requires name in Names(config.workers)
    ensures SelectWorker(config, msgs, KeyGranted(key), invoke, decode).outcome == Returned(name, Validated)
  {
  }

  /** A decision without a `chosen_model` string, or naming anything not configured,
      yields the default worker on the non-exceptional path. */
  lemma InvalidChoiceFallsBack(config: RouterConfig, msgs: seq<Message>, key: string, intent: string,
                               invoke: DecisionCall -> CallResult, decode: string -> Decoded,
                               body: ResponseBody, fields: map<string, JsonValue>)
    requires HasIntent(msgs, intent)
    requires invoke(DecisionCall(DecisionRequestFor(config, intent), key)) == Responded(body)
    requires DecisionText(body).Some? && decode(DecisionText(body).value) == JsonObject(fields)
    requires ChosenModelKey !in fields || !fields[ChosenModelKey].JsonString? ||
             fields[ChosenModelKey].s !in Names(config.workers)
    ensures SelectWorker(config, msgs, KeyGranted(key), invoke, decode).outcome ==
              Returned(config.defaultWorker, InvalidChoice)
  {
  }

  /** Every failure inside the `try` yields the default worker: no key, a failed
      call, a response without a first choice's content, text that is not JSON,
      JSON that is not an object. */
  lemma FailuresFallBack(config: RouterConfig, msgs: seq<Message>, key: KeyResult, intent: string,
                         invoke: DecisionCall -> CallResult, decode: string -> Decoded)
    requires HasIntent(msgs, intent)
    requires || key.KeyUnavailable?
             || invoke(DecisionCall(DecisionRequestFor(config, intent), key.key)).CallFailed?
             || DecisionText(invoke(DecisionCall(DecisionRequestFor(config, intent), key.key)).body).None?
             || decode(DecisionText(invoke(DecisionCall(DecisionRequestFor(config, intent), key.key)).body).value).NotJson?
             || decode(DecisionText(invoke(DecisionCall(DecisionRequestFor(config, intent), key.key)).body).value).JsonNonObject?
    ensures SelectWorker(config, msgs, key, invoke, decode).outcome.Returned?
    ensures SelectWorker(config, msgs, key, invoke, decode).outcome.worker == config.defaultWorker
    ensures SelectWorker(config, msgs, key, invoke, decode).outcome.path.Recovered?
  {
  }

  /** The configuration the router expects: non-empty worker names and default. */
  ghost predicate WellFormed(config: RouterConfig)
  {
    config.defaultWorker != "" && forall i :: 0 <= i < |config.workers| ==> config.workers[i].name != ""
  }

  /** Under a well-formed configuration a returned worker is never empty. */
  lemma RoutedWorkerNonEmpty(config: RouterConfig, msgs: seq<Message>, key: KeyResult,
                             invoke: DecisionCall -> CallResult, decode: string -> Decoded)
    requires WellFormed(config)
    ensures SelectWorker(config, msgs, key, invoke, decode).outcome.Returned? ==>
              SelectWorker(config, msgs, key, invoke, decode).outcome.worker != ""
  {
  }

  /** As written, a request without any `user` message raises instead of routing to
      the default worker: the `None` from the scan is iterated. */
  lemma NoUserMessageRaises(config: RouterConfig, key: KeyResult,
                            invoke: DecisionCall -> CallResult, decode: string -> Decoded)
    ensures SelectWorker(config, [Message("system", Plain("be brief"))], key, invoke, decode) == Routing(Raised(NotIterable), [])
  {
  }

  /** The extraction as evidently intended: a missing user message, or one whose
      content is `None`, yields no intent instead of raising. */
  function ExtractIntentIntended(msgs: seq<Message>): (r: Result<string, IntentError>)
    ensures HasNoUser(msgs) ==> r == Ok("")
    ensures forall i :: IsLastUser(msgs, i) && msgs[i].content.NoContent? ==> r == Ok("")
    ensures r.Err? ==> r.error == MissingTextKey && r == ExtractIntent(msgs)
    ensures ExtractIntent(msgs).Ok? ==> r == ExtractIntent(msgs)
    ensures ExtractIntent(msgs) == Err(MissingTextKey) ==> r == Err(MissingTextKey)
  {
    match LastUserIndex(msgs)
    case None => Ok("")
    case Some(i) => if msgs[i].content.NoContent? then Ok("") else ExtractIntent(msgs)
  }

  /** `select_worker_model` as evidently intended: the warning "could not find user
      prompt" and the default worker when there is no user text. */
  function SelectWorkerIntended(config: RouterConfig, msgs: seq<Message>, key: KeyResult,
                                invoke: DecisionCall -> CallResult, decode: string -> Decoded): (r: Routing)
    ensures HasNoUser(msgs) ==> r == Routing(Returned(config.defaultWorker, NoIntent), [])
    ensures r.outcome.Raised? ==> r.outcome.error == MissingTextKey
    ensures r.outcome.Returned? ==> r.outcome.worker in Names(config.workers) || r.outcome.worker == config.defaultWorker
    ensures ExtractIntent(msgs).Ok? ==> r == SelectWorker(config, msgs, key, invoke, decode)
    ensures ExtractIntent(msgs) == Err(MissingTextKey) ==> r == SelectWorker(config, msgs, key, invoke, decode)
    ensures ExtractIntentIntended(msgs) == Ok("") ==> r == Routing(Returned(config.defaultWorker, NoIntent), [])
  {
    match ExtractIntentIntended(msgs)
    case Err(e) => Routing(Raised(e), [])
    case Ok(intent) =>
      if intent == "" then Routing(Returned(config.defaultWorker, NoIntent), [])
      else SelectWorker(config, msgs, key, invoke, decode)
  }
}

=== FILE: router_intent.dfy ===
/** Extraction of the user's intent from a chat request (first lines of
    `LLMRouterService.select_worker_model`). The scan runs before the `try`
    block, so its failures escape to the caller. */
module Intent {
  import opened Wrappers

  /** One element of a multi-part message content. `text` is `None` when the part
      has no `text` key. */
  datatype Part = Part(kind: string, text: Option<string>)

  /** A message's `content`: a plain string, a list of parts, or `None`. */
  datatype Content = Plain(text: string) | Multipart(parts: seq<Part>) | NoContent

  datatype Message = Message(role: string, content: Content)

  /** Python exceptions the extraction can raise: iterating `None` (a `TypeError`)
      and a `text` part without a `text` key (a `KeyError`). */
  datatype IntentError = NotIterable | MissingTextKey

  const UserRole := "user"
  const TextKind := "text"

  /** Substituted when the last user message has parts but none of type `text`. */
  const ImagePlaceholder := "Image analysis requested"

  /** `i` is the index of the last message whose role is `user`. */
  ghost predicate IsLastUser(msgs: seq<Message>, i: int)
  {
    && 0 <= i < |msgs|
    && msgs[i].role == UserRole
    && forall j :: i < j < |msgs| ==> msgs[j].role != UserRole
  }

  ghost predicate HasNoUser(msgs: seq<Message>)
  {
    forall j :: 0 <= j < |msgs| ==> msgs[j].role != UserRole
  }

  /** The reverse scan for the most recent `user` message. */
  function LastUserIndex(msgs: seq<Message>): (r: Option<nat>)
    ensures r.Some? ==> IsLastUser(msgs, r.value)
    ensures r.None? <==> HasNoUser(msgs)
  {
    if |msgs| == 0 then None
    else if msgs[|msgs| - 1].role == UserRole then Some(|msgs| - 1)
    else LastUserIndex(msgs[..|msgs| - 1])
  }

  /** `i` is the index of the first part whose type is `text`. */
  ghost predicate IsFirstText(parts: seq<Part>, i: int)
  {
    && 0 <= i < |parts|
    && parts[i].kind == TextKind
    && forall j :: 0 <= j < i ==> parts[j].kind != TextKind
  }

  ghost predicate HasNoText(parts: seq<Part>)
  {
    forall j :: 0 <= j < |parts| ==> parts[j].kind != TextKind
  }

  /** The forward scan for the first `text` part. */
  function FirstTextIndex(parts: seq<Part>): (r: Option<nat>)
    ensures r.Some? ==> IsFirstText(parts, r.value)
    ensures r.None? <==> HasNoText(parts)
  {
    if |parts| == 0 then None
    else if parts[0].kind == TextKind then Some(0)
    else match FirstTextIndex(parts[1..])
      case None => None
      case Some(i) => Some(i + 1)
  }

  /** The intent carried by multi-part content: the first text part's text, or the
      image placeholder when there is none. */
  function PartsIntent(parts: seq<Part>): (r: Result<string, IntentError>)
    ensures HasNoText(parts) ==> r == Ok(ImagePlaceholder)
    ensures forall i :: IsFirstText(parts, i) ==>
              (if parts[i].text.Some? then r == Ok(parts[i].text.value) else r == Err(MissingTextKey))
  {
    match FirstTextIndex(parts)
    case None => Ok(ImagePlaceholder)
    case Some(i) =>
      if parts[i].text.Some? then Ok(parts[i].text.value) else Err(MissingTextKey)
  }

  /** The user's intent: the content of the last `user` message, reduced to text.
      With no `user` message Python iterates `None` and raises. */
  function ExtractIntent(msgs: seq<Message>): (r: Result<string, IntentError>)
    ensures HasNoUser(msgs) ==> r == Err(NotIterable)
    ensures forall i :: IsLastUser(msgs, i) ==>
              match msgs[i].content
              case Plain(s) => r == Ok(s)
              case Multipart(parts) => r == PartsIntent(parts)
              case NoContent => r == Err(NotIterable)
  {
    match LastUserIndex(msgs)
    case None => Err(NotIterable)
    case Some(i) =>
      match msgs[i].content
      case Plain(s) => Ok(s)
      case Multipart(parts) => PartsIntent(parts)
      case NoContent => Err(NotIterable)
  }

  /** Extraction succeeds exactly when a `user` message exists whose content is a
      string, or parts whose first `text` part (if any) has a `text` key. */
  lemma ExtractIntentSucceeds(msgs: seq<Message>)
    ensures ExtractIntent(msgs).Ok? <==>
              exists i :: IsLastUser(msgs, i) &&
                (msgs[i].content.Plain? ||
                 (msgs[i].content.Multipart? &&
                  forall k :: IsFirstText(msgs[i].content.parts, k) ==> msgs[i].content.parts[k].text.Some?))
  {
  }

  /** A multi-part message `[image, text "hello"]` routes on "hello". */
  lemma ImageThenText()
    ensures ExtractIntent([Message("user", Multipart([Part("image_url", None), Part("text", Some("hello"))]))]) == Ok("hello")
  {
  }

  /** An image-only message routes on the placeholder. */
  lemma ImageOnly()
    ensures ExtractIntent([Message("user", Multipart([Part("image_url", None)]))]) == Ok(ImagePlaceholder)
  {
  }
}

=== FILE: router_prompt.dfy ===
/** Configuration of the LLM router and the prompt it sends to the decision model
    (`LLMRouterService._build_routing_prompt`). */
module RoutingPrompt {
  import opened Text

  /** One entry of the router configuration: a worker model and what it is good at. */
  datatype WorkerDescriptor = WorkerDescriptor(name: string, description: string)

  /** The router settings: worker list in configuration order, the fallback worker
      and the model that makes the routing decision. */
  datatype RouterConfig = RouterConfig(workers: seq<WorkerDescriptor>, defaultWorker: string, routerModel: string)

  /** A chat message of the decision request. */
  datatype PromptMessage = PromptMessage(role: string, content: string)

  /** The names a decision may choose from, in configuration order. */
  function Names(workers: seq<WorkerDescriptor>): (names: seq<string>)
    ensures |names| == |workers|
    ensures forall i :: 0 <= i < |workers| ==> names[i] == workers[i].name
  {
    seq(|workers|, i requires 0 <= i < |workers| => workers[i].name)
  }

  const LinePrefix := "- `"
  const LineInfix := "`: "

  /** The line describing one worker: ``- `name`: description``. */
  function WorkerLine(w: WorkerDescriptor): string
  {
    LinePrefix + w.name + LineInfix + w.description
  }

  /** A worker's line opens with ``- ` ``, ends with the description, and adds six
      characters of markup to the name and description. */
  lemma WorkerLineShape(w: WorkerDescriptor)
    ensures |WorkerLine(w)| == |w.name| + |w.description| + 6
    ensures WorkerLine(w)[..3] == "- `"
    ensures WorkerLine(w)[|w.name| + 4..|w.name| + 6] == ": "
    ensures WorkerLine(w)[|WorkerLine(w)| - |w.description|..] == w.description
  {
  }

  function WorkerLines(workers: seq<WorkerDescriptor>): (lines: seq<string>)
    ensures |lines| == |workers|
    ensures forall i :: 0 <= i < |workers| ==> lines[i] == WorkerLine(workers[i])
  {
    seq(|workers|, i requires 0 <= i < |workers| => WorkerLine(workers[i]))
  }

  /** The worker list of the prompt: one line per worker, joined by newlines. */
  function WorkerBlock(workers: seq<WorkerDescriptor>): string
  {
    Join(WorkerLines(workers), "\n")
  }

  /** The fixed text around the worker list and the user's text: what precedes the
      worker list, what lies between it and the user's text, and what follows. */
  datatype PromptTemplate = PromptTemplate(preamble: string, instructions: string, closing: string)

  /** Text before the worker list. */
  const Preamble := "\nYou are an expert AI model router. Your task is to analyze the user's prompt and select the most appropriate and cost-effective model from the following list to handle the request.\n\nAvailable Models:\n"

  /** Text between the worker list and the user's text: the JSON answer contract. */
  const Instructions := "\n\nYou must respond in a pure JSON format with the following structure:\n{\n  \"chosen_model\": \"name_of_the_selected_model\",\n  \"reasoning\": \"A brief explanation of why you chose this model.\"\n}\n\nAnalyze the following user prompt and provide your JSON decision.\nUser Prompt: \""

  /** Text after the user's text: closing quote, a space, a newline. */
  const Closing := "\" \n"

  /** The router's template. The lemmas below hold for any template, so they are
      stated over a template `t` and apply to this one. */
  const RouterTemplate := PromptTemplate(Preamble, Instructions, Closing)

  /** Everything of the prompt that precedes the user's text. */
  function PromptHead(t: PromptTemplate, workers: seq<WorkerDescriptor>): string
  {
    t.preamble + WorkerBlock(workers) + t.instructions
  }

  /** The rendered prompt: head, the user's text verbatim and unescaped, closing. */
  function RoutingPromptText(t: PromptTemplate, workers: seq<WorkerDescriptor>, userPrompt: string): (text: string)
    ensures |text| == |PromptHead(t, workers)| + |userPrompt| + |t.closing|
    ensures text[|PromptHead(t, workers)|..|PromptHead(t, workers)| + |userPrompt|] == userPrompt
    ensures text[|PromptHead(t, workers)| + |userPrompt|..] == t.closing
  {
    var head := PromptHead(t, workers);
    InnerSlice(head, userPrompt, t.closing, 0, |userPrompt|);
    head + userPrompt + t.closing
  }

  /** The decision request's messages: a single `user` message holding the prompt
      rendered with the router's template. */
  function BuildRoutingPrompt(workers: seq<WorkerDescriptor>, userPrompt: string): (msgs: seq<PromptMessage>)
    ensures |msgs| == 1 && msgs[0].role == "user"
    ensures msgs[0].content == RoutingPromptText(RouterTemplate, workers, userPrompt)
  {
    [PromptMessage("user", RoutingPromptText(RouterTemplate, workers, userPrompt))]
  }

  /** Where the line of worker `i` starts in the prompt text. */
  function LineStart(t: PromptTemplate, workers: seq<WorkerDescriptor>, i: nat): nat
    requires i <= |workers|
  {
    |t.preamble| + Offset(WorkerLines(workers), "\n", i)
  }

  /** The prompt text starts with its head unchanged. */
  lemma HeadInPrompt(t: PromptTemplate, workers: seq<WorkerDescriptor>, userPrompt: string, lo: nat, hi: nat)
    requires lo <= hi <= |PromptHead(t, workers)|
    ensures RoutingPromptText(t, workers, userPrompt)[lo..hi] == PromptHead(t, workers)[lo..hi]
  {
  }

  /** Every configured worker has its own line in the prompt, at `LineStart`, lying
      inside the worker list, and the next worker's line follows it after one newline. */
  lemma {:induction false} WorkerLineInPrompt(t: PromptTemplate, workers: seq<WorkerDescriptor>, userPrompt: string, i: nat)
    requires i < |workers|
    ensures LineStart(t, workers, i) + |WorkerLine(workers[i])| <= |PromptHead(t, workers)|
    ensures RoutingPromptText(t, workers, userPrompt)[LineStart(t, workers, i)..LineStart(t, workers, i) + |WorkerLine(workers[i])|]
            == WorkerLine(workers[i])
    ensures i + 1 < |workers| ==>
              LineStart(t, workers, i + 1) == LineStart(t, workers, i) + |WorkerLine(workers[i])| + 1
    ensures i + 1 == |workers| ==>
              LineStart(t, workers, i) + |WorkerLine(workers[i])| == |t.preamble| + |WorkerBlock(workers)|
  {
    WorkerLineInHead(t, workers, i);
    if i + 1 == |workers| {
      JoinEnds(WorkerLines(workers), "\n");
    }
    HeadInPrompt(t, workers, userPrompt, LineStart(t, workers, i), LineStart(t, workers, i) + |WorkerLine(workers[i])|);
    if i + 1 < |workers| {
      LineStartStep(t, workers, i);
    }
  }

  /** The worker list is framed by the template: the preamble comes first, and the
      instructions start right where the list ends. With no workers the list is empty. */
  lemma ListFramed(t: PromptTemplate, workers: seq<WorkerDescriptor>, userPrompt: string)
    ensures |workers| == 0 ==> WorkerBlock(workers) == ""
    ensures RoutingPromptText(t, workers, userPrompt)[..|t.preamble|] == t.preamble
    ensures RoutingPromptText(t, workers, userPrompt)[|t.preamble|..|t.preamble| + |WorkerBlock(workers)|] == WorkerBlock(workers)
    ensures RoutingPromptText(t, workers, userPrompt)[|t.preamble| + |WorkerBlock(workers)|..|PromptHead(t, workers)|] == t.instructions
  {
    var pre, block := |t.preamble|, |WorkerBlock(workers)|;
    FrameInHead(t, workers);
    HeadInPrompt(t, workers, userPrompt, 0, pre);
    HeadInPrompt(t, workers, userPrompt, pre, pre + block);
    HeadInPrompt(t, workers, userPrompt, pre + block, |PromptHead(t, workers)|);
  }

  /** The head is the preamble, the worker list and the instructions, in that order. */
  lemma FrameInHead(t: PromptTemplate, workers: seq<WorkerDescriptor>)
    ensures PromptHead(t, workers)[..|t.preamble|] == t.preamble
    ensures PromptHead(t, workers)[|t.preamble|..|t.preamble| + |WorkerBlock(workers)|] == WorkerBlock(workers)
    ensures PromptHead(t, workers)[|t.preamble| + |WorkerBlock(workers)|..] == t.instructions
  {
    var pre, block, instr := t.preamble, WorkerBlock(workers), t.instructions;
    InnerSlice(pre, block, instr, 0, |block|);
    PrefixSlice(pre, block + instr);
    assert PromptHead(t, workers) == pre + (block + instr);
  }

  /** A worker's name wrapped in backticks, as it appears in its line. */
  function Quoted(name: string): string
  {
    "`" + name + "`"
  }

  /** The quoted name occupies the line from offset 2. */
  lemma QuotedNameInLine(w: WorkerDescriptor)
    ensures |Quoted(w.name)| + 2 <= |WorkerLine(w)|
    ensures WorkerLine(w)[2..2 + |Quoted(w.name)|] == Quoted(w.name)
  {
    InnerSlice("- ", Quoted(w.name), ": " + w.description, 0, |Quoted(w.name)|);
    assert LinePrefix == "- " + "`";
    assert LineInfix == "`" + ": ";
    assert WorkerLine(w) == "- " + Quoted(w.name) + (": " + w.description);
  }

  /** Every configured worker's name appears in the prompt between backticks, two
      characters into its own line. */
  lemma NameInPrompt(t: PromptTemplate, workers: seq<WorkerDescriptor>, userPrompt: string, i: nat)
    requires i < |workers|
    ensures LineStart(t, workers, i) + 2 + |Quoted(workers[i].name)| <= |PromptHead(t, workers)|
    ensures RoutingPromptText(t, workers, userPrompt)[LineStart(t, workers, i) + 2..LineStart(t, workers, i) + 2 + |Quoted(workers[i].name)|]
            == Quoted(workers[i].name)
  {
    var a := LineStart(t, workers, i);
    var q := Quoted(workers[i].name);
    WorkerLineInHead(t, workers, i);
    QuotedNameInLine(workers[i]);
    SliceWithin(PromptHead(t, workers), a, WorkerLine(workers[i]), 2, 2 + |q|);
    HeadInPrompt(t, workers, userPrompt, a + 2, a + 2 + |q|);
  }

  /** Worker `i`'s line lies at `LineStart` inside the head. */
  lemma {:induction false} WorkerLineInHead(t: PromptTemplate, workers: seq<WorkerDescriptor>, i: nat)
    requires i < |workers|
    ensures LineStart(t, workers, i) + |WorkerLine(workers[i])| <= |PromptHead(t, workers)|
    ensures PromptHead(t, workers)[LineStart(t, workers, i)..LineStart(t, workers, i) + |WorkerLine(workers[i])|]
            == WorkerLine(workers[i])
  {
    PartInFrame(t.preamble, WorkerLines(workers), "\n", t.instructions, i);
  }

  /** The next worker's line starts one newline after this one ends. */
  lemma LineStartStep(t: PromptTemplate, workers: seq<WorkerDescriptor>, i: nat)
    requires i + 1 < |workers|
    ensures LineStart(t, workers, i + 1) == LineStart(t, workers, i) + |WorkerLine(workers[i])| + 1
  {
    OffsetStep(WorkerLines(workers), "\n", i);
  }

  /** Worker lines appear in configuration order. */
  lemma WorkersInConfigOrder(t: PromptTemplate, workers: seq<WorkerDescriptor>, i: nat, j: nat)
    requires i < j < |workers|
    ensures LineStart(t, workers, i) + |WorkerLine(workers[i])| < LineStart(t, workers, j)
  {
    PartsInOrder(WorkerLines(workers), "\n", i, j);
  }
}

=== FILE: status_code.dfy ===
/** The status code a generic embedding failure is logged with: the number after
    the first `status code ` that is followed by a digit (`re.search(r"status code (\d+)", ...)`),
    or 500 when the message holds none. */
module StatusCode {
  import opened Wrappers

  const Marker := "status code "
  const FallbackStatus := 500

  predicate IsDigit(c: char)
  {
    '0' <= c <= '9'
  }

  predicate AllDigits(s: string)
  {
    forall i :: 0 <= i < |s| ==> IsDigit(s[i])
  }

  /** The longest run of digits at the start of `s` (the greedy `\d+`). */
  function DigitRun(s: string): (r: string)
    ensures |r| <= |s| && r == s[..|r|]
    ensures AllDigits(r)
    ensures |r| < |s| ==> !IsDigit(s[|r|])
  {
    if |s| == 0 || !IsDigit(s[0]) then "" else [s[0]] + DigitRun(s[1..])
  }

  function DigitValue(c: char): nat
    requires IsDigit(c)
  {
    (c as int - '0' as int) as nat
  }

  /** `int(ds)` for a string of decimal digits. */
  function DecimalValue(ds: string): nat
    requires AllDigits(ds)
  {
    if |ds| == 0 then 0 else DecimalValue(ds[..|ds| - 1]) * 10 + DigitValue(ds[|ds| - 1])
  }

  /** The pattern matches at `i`: the marker, then at least one digit. */
  predicate MatchesAt(msg: string, i: nat)
  {
    && i + |Marker| < |msg|
    && msg[i..i + |Marker|] == Marker
    && IsDigit(msg[i + |Marker|])
  }

  /** The leftmost match at or after `start`, as `re.search` scans. */
  function FirstMatchFrom(msg: string, start: nat): (r: Option<nat>)
    requires start <= |msg|
    ensures r.Some? ==> start <= r.value && MatchesAt(msg, r.value)
    ensures r.Some? ==> forall k :: start <= k < r.value ==> !MatchesAt(msg, k)
    ensures r.None? ==> forall k: nat :: start <= k ==> !MatchesAt(msg, k)
    decreases |msg| - start
  {
    if start == |msg| then None
    else if MatchesAt(msg, start) then Some(start)
    else FirstMatchFrom(msg, start + 1)
  }

  /** `i` is the leftmost match in `msg`. */
  ghost predicate IsFirstMatch(msg: string, i: nat)
  {
    MatchesAt(msg, i) && forall k: nat :: k < i ==> !MatchesAt(msg, k)
  }

  /** The number captured by a match at `i`. */
  function CodeAt(msg: string, i: nat): nat
    requires i + |Marker| <= |msg|
  {
    DecimalValue(DigitRun(msg[i + |Marker|..]))
  }

  /** The number captured by the leftmost match, if any. */
  function StatusCodeIn(msg: string): (r: Option<nat>)
    ensures r.None? <==> forall k: nat :: !MatchesAt(msg, k)
    ensures forall i :: IsFirstMatch(msg, i) ==> r == Some(CodeAt(msg, i))
  {
    match FirstMatchFrom(msg, 0)
    case None => None
    case Some(i) => Some(CodeAt(msg, i))
  }

  /** The status logged for a generic error with message `msg`. */
  function GenericStatus(msg: string): (code: int)
    ensures code >= 0
    ensures (forall k: nat :: !MatchesAt(msg, k)) ==> code == FallbackStatus
    ensures StatusCodeIn(msg).Some? ==> code == StatusCodeIn(msg).value
  {
    match StatusCodeIn(msg)
    case None => FallbackStatus
    case Some(c) => c
  }

  /** The decimal rendering of `n`, as `str(n)`. */
  function DecimalString(n: nat): (s: string)
    ensures |s| > 0 && AllDigits(s)
  {
    if n < 10 then [('0' as int + n) as char]
    else DecimalString(n / 10) + [('0' as int + n % 10) as char]
  }

  /** Reading back a rendered number yields the number. */
  lemma {:induction false} DecimalRoundTrip(n: nat)
    ensures DecimalValue(DecimalString(n)) == n
  {
    var s := DecimalString(n);
    if n >= 10 {
      DecimalRoundTrip(n / 10);
      assert s[..|s| - 1] == DecimalString(n / 10);
    }
  }

  /** The digit run stops exactly where the digits end. */
  lemma {:induction false} DigitRunOfDigits(ds: string, rest: string)
    requires AllDigits(ds)
    requires rest == [] || !IsDigit(rest[0])
    ensures DigitRun(ds + rest) == ds
  {
    if |ds| > 0 {
      assert (ds + rest)[1..] == ds[1..] + rest;
      DigitRunOfDigits(ds[1..], rest);
    } else {
      assert ds + rest == rest;
    }
  }

  /** A message that starts with `status code <n>` reports `n`. */
  lemma ReportedCodeRoundTrip(n: nat, rest: string)
    requires rest == [] || !IsDigit(rest[0])
    ensures StatusCodeIn(Marker + DecimalString(n) + rest) == Some(n)
    ensures GenericStatus(Marker + DecimalString(n) + rest) == n
  {
    var digits := DecimalString(n);
    var msg := Marker + digits + rest;
    assert msg[..|Marker|] == Marker;
    assert msg[|Marker|] == digits[0];
    assert MatchesAt(msg, 0);
    assert FirstMatchFrom(msg, 0) == Some(0);
    assert msg[|Marker|..] == digits + rest;
    DigitRunOfDigits(digits, rest);
    DecimalRoundTrip(n);
  }
}

=== FILE: text.dfy ===
/** String joining, as Python's `sep.join(parts)`, with the positions of each part. */
module Text {

  /** The combined length of all parts, each followed by one separator. */
  function SpacedLength(parts: seq<string>, sep: string): nat
  {
    if |parts| == 0 then 0 else |parts[0]| + |sep| + SpacedLength(parts[1..], sep)
  }

  /** `sep.join(parts)`: the parts in order, one separator between neighbours. */
  function Join(parts: seq<string>, sep: string): string
  {
    if |parts| == 0 then ""
    else if |parts| == 1 then parts[0]
    else parts[0] + sep + Join(parts[1..], sep)
  }

  /** Where part `i` starts inside `Join(parts, sep)`. */
  function Offset(parts: seq<string>, sep: string, i: nat): nat
    requires i <= |parts|
  {
    if i == 0 then 0 else |parts[0]| + |sep| + Offset(parts[1..], sep, i - 1)
  }

  /** Part `i` sits verbatim at `Offset(parts, sep, i)`, and the separator follows it
      when another part comes after. */
  lemma {:induction false} PartAt(parts: seq<string>, sep: string, i: nat)
    requires i < |parts|
    ensures Offset(parts, sep, i) + |parts[i]| <= |Join(parts, sep)|
    ensures Join(parts, sep)[Offset(parts, sep, i)..Offset(parts, sep, i) + |parts[i]|] == parts[i]
    ensures i + 1 < |parts| ==> Offset(parts, sep, i + 1) == Offset(parts, sep, i) + |parts[i]| + |sep|
    ensures i + 1 < |parts| ==> Offset(parts, sep, i + 1) <= |Join(parts, sep)|
    ensures i + 1 < |parts| ==>
              Join(parts, sep)[Offset(parts, sep, i) + |parts[i]|..Offset(parts, sep, i + 1)] == sep
  {
    if i + 1 < |parts| {
      OffsetStep(parts, sep, i);
    }
    if i == 0 {
      FirstPartAt(parts, sep);
    } else {
      PartAt(parts[1..], sep, i - 1);
      LaterPartAt(parts, sep, i);
    }
  }

  /** The first part opens the join, and the separator follows it when more come. */
  lemma FirstPartAt(parts: seq<string>, sep: string)
    requires |parts| > 0
    ensures |parts[0]| <= |Join(parts, sep)|
    ensures Join(parts, sep)[0..|parts[0]|] == parts[0]
    ensures |parts| > 1 ==> |parts[0]| + |sep| <= |Join(parts, sep)|
    ensures |parts| > 1 ==> Join(parts, sep)[|parts[0]|..|parts[0]| + |sep|] == sep
  {
    if |parts| > 1 {
      var rest := Join(parts[1..], sep);
      assert Join(parts, sep) == parts[0] + (sep + rest);
      PrefixSlice(parts[0], sep + rest);
      PrefixSlice(sep, rest);
      ShiftedSlice(parts[0], sep + rest, 0, |sep|);
    }
  }

  /** A later part's position follows from its position in the join of the tail,
      which comes after the first part and one separator. */
  lemma LaterPartAt(parts: seq<string>, sep: string, i: nat)
    requires 0 < i < |parts|
    requires Offset(parts[1..], sep, i - 1) + |parts[i]| <= |Join(parts[1..], sep)|
    requires Join(parts[1..], sep)[Offset(parts[1..], sep, i - 1)..Offset(parts[1..], sep, i - 1) + |parts[i]|] == parts[i]
    requires i + 1 < |parts| ==> Offset(parts[1..], sep, i) == Offset(parts[1..], sep, i - 1) + |parts[i]| + |sep|
    requires i + 1 < |parts| ==> Offset(parts[1..], sep, i) <= |Join(parts[1..], sep)|
    requires i + 1 < |parts| ==>
               Join(parts[1..], sep)[Offset(parts[1..], sep, i - 1) + |parts[i]|..Offset(parts[1..], sep, i)] == sep
    ensures Offset(parts, sep, i) + |parts[i]| <= |Join(parts, sep)|
    ensures Join(parts, sep)[Offset(parts, sep, i)..Offset(parts, sep, i) + |parts[i]|] == parts[i]
    ensures i + 1 < |parts| ==> Offset(parts, sep, i + 1) == Offset(parts, sep, i) + |parts[i]| + |sep|
    ensures i + 1 < |parts| ==> Offset(parts, sep, i + 1) <= |Join(parts, sep)|
    ensures i + 1 < |parts| ==>
              Join(parts, sep)[Offset(parts, sep, i) + |parts[i]|..Offset(parts, sep, i + 1)] == sep
  {
    var head := parts[0] + sep;
    var rest := Join(parts[1..], sep);
    assert Join(parts, sep) == head + rest;
    var o := Offset(parts[1..], sep, i - 1);
    ShiftedSlice(head, rest, o, o + |parts[i]|);
    if i + 1 < |parts| {
      ShiftedSlice(head, rest, o + |parts[i]|, Offset(parts[1..], sep, i));
    }
  }

  /** The join holds every part and one separator between neighbours, nothing more:
      its length plus one separator is that of all parts each followed by a separator. */
  lemma {:induction false} JoinLength(parts: seq<string>, sep: string)
    ensures |parts| == 0 ==> Join(parts, sep) == ""
    ensures |parts| > 0 ==> |Join(parts, sep)| + |sep| == SpacedLength(parts, sep)
  {
    if |parts| > 1 {
      JoinLength(parts[1..], sep);
    }
  }

  /** The join ends right after its last part: nothing follows the last part. */
  lemma {:induction false} JoinEnds(parts: seq<string>, sep: string)
    requires |parts| > 0
    ensures |Join(parts, sep)| == Offset(parts, sep, |parts| - 1) + |parts[|parts| - 1]|
  {
    if |parts| > 1 {
      JoinEnds(parts[1..], sep);
      assert Join(parts, sep) == parts[0] + sep + Join(parts[1..], sep);
      assert parts[1..][|parts| - 2] == parts[|parts| - 1];
    }
  }

  /** The leading piece of a concatenation. */
  lemma PrefixSlice(a: string, b: string)
    ensures (a + b)[..|a|] == a
    ensures (a + b)[0..|a|] == a
  {
  }

  /** A slice of the trailing piece of a concatenation. */
  lemma ShiftedSlice(a: string, b: string, lo: nat, hi: nat)
    requires lo <= hi <= |b|
    ensures (a + b)[|a| + lo..|a| + hi] == b[lo..hi]
  {
    assert (a + b)[|a|..] == b;
  }

  /** Each part advances the offset by its own length plus one separator. */
  lemma {:induction false} OffsetStep(parts: seq<string>, sep: string, i: nat)
    requires i < |parts|
    ensures Offset(parts, sep, i + 1) == Offset(parts, sep, i) + |parts[i]| + |sep|
  {
    if i > 0 {
      OffsetStep(parts[1..], sep, i - 1);
    }
  }

  /** Parts appear in their original order: a later part starts after an earlier one ends. */
  lemma {:induction false} PartsInOrder(parts: seq<string>, sep: string, i: nat, j: nat)
    requires i < j < |parts|
    ensures Offset(parts, sep, i) + |parts[i]| + |sep| <= Offset(parts, sep, j)
  {
    if i > 0 {
      PartsInOrder(parts[1..], sep, i - 1, j - 1);
    }
  }

  /** A slice of the middle piece of a three-piece concatenation. */
  lemma InnerSlice(pre: string, mid: string, post: string, lo: nat, hi: nat)
    requires lo <= hi <= |mid|
    ensures (pre + mid + post)[|pre| + lo..|pre| + hi] == mid[lo..hi]
  {
  }

  /** A slice of a part that sits at offset `a` of `s` is the matching slice of `s`. */
  lemma SliceWithin(s: string, a: nat, part: string, lo: nat, hi: nat)
    requires a + |part| <= |s| && s[a..a + |part|] == part
    requires lo <= hi <= |part|
    ensures s[a + lo..a + hi] == part[lo..hi]
  {
    forall k | 0 <= k < hi - lo
      ensures s[a + lo..a + hi][k] == part[lo..hi][k]
    {
      assert s[a..a + |part|][lo + k] == s[a + lo + k];
    }
  }

  /** Part `i` of a joined text framed by `pre` and `post` sits at `|pre|` plus its offset. */
  lemma PartInFrame(pre: string, parts: seq<string>, sep: string, post: string, i: nat)
    requires i < |parts|
    ensures |pre| + Offset(parts, sep, i) + |parts[i]| <= |pre + Join(parts, sep) + post|
    ensures (pre + Join(parts, sep) + post)[|pre| + Offset(parts, sep, i)..|pre| + Offset(parts, sep, i) + |parts[i]|] == parts[i]
  {
    PartAt(parts, sep, i);
    var o := Offset(parts, sep, i);
    InnerSlice(pre, Join(parts, sep), post, o, o + |parts[i]|);
  }
}

=== FILE: wrappers.dfy ===
/** Failure-carrying datatypes shared by the router and embedding models. */
module Wrappers {

  /** A value that may be missing (Python's `None`). */
  datatype Option<+T> = None | Some(value: T)

  /** The result of a step that either produces a value or raises. */
  datatype Result<+T, +E> = Ok(value: T) | Err(error: E)
}
